=== FILE: README.md ===
# Typed expression-graph builder (blaze prototype), modelled in Dafny

The modelled code is blaze's prototype expression graph, in `expression.py`.
Arithmetic on proxy objects computes nothing. It appends nodes to an
abstract syntax graph, and an evaluator later hands the graph to one of
three backends.

- **Category registry** (`Categories`). This is the source's `module` dictionary
  (category → operation table) and its `docs` dictionary (category → doc string).
  They are kept as two maps because the proxy reads both. `Default()` is the
  registry the source ships: `array` has `__add__`, `__radd__` and `dot`;
  `scalar` has `__add__` and `__mul__`. Each operation is described by what
  it builds (`binop` with an operator, or `kernel` with a kind and a name) and
  by whether it passes its operands reflected.
- **Nodes** (`Nodes`). `Ast` holds `Terminal(ty, src)`, `Op(op, left, right)` and
  `Kernel(kind, name, args)`. `Value(ty, ast)` wraps a graph. `Obj` is any
  Python object the builder can receive: numbers, lists, ndarrays, other
  objects, bare AST nodes and Values. A Terminal's `src` may hold any such
  object, so `Obj` and `Ast` are mutually recursive.
- **Proxies** (`Proxies`). `Node._proxy` is a category tag plus a lookup
  into the registry. It yields a `View` carrying the category, its doc string
  and exactly its operation table. Building a Terminal or a Value goes
  through it, so an unregistered category fails.
- **Builder** (`Builder`). `unify`, `unit`, `map(unit, ·)`, `binop` and `kernel`,
  with each Python exception as an `Error`, raised in the source's order.
  `binop` unifies before lifting. `kernel` lifts every operand before it
  indexes `args[0]` and `args[1]`.
- **Operations** (`Operations`). `self.name(other)` on a node looks `name` up
  in the node category's table and runs the wrapper.
- **Evaluation** (`Evaluation`). `Node.eval` is modelled on a Value, and so is a
  Terminal's own `eval`. The three backends are opaque functions of the
  graph. The oracle's random choice is an index `draw` into its
  three-name list.

Three behaviours of the code are easy to misread; the model follows the code:
- An unrecognised backend name is not an error. `Node.eval` falls back to
  the oracle, the same as for `None` (expression.py:146-147).
- `Terminal.eval()` returns the Terminal itself, not its source object. It
  accepts no backend argument (expression.py:210-211).
- A Value's category is read from the unlifted first operand: before
  lifting in `binop` (expression.py:96), after lifting every operand in
  `kernel` (expression.py:106-107). No category is computed from the lifted
  nodes.

All graph values are immutable datatypes. So the source's guarantee that
building never modifies an existing node holds by construction. The
contracts state the remaining half: a new node refers to exactly the lifted
operands, in order.

## Model

| member | source | states |
|---|---|---|
| Nodes.KindOf | expression.py:31-35 | an integer names a kernel kind exactly when it is 0..4, and the kind's code gives that integer back |
| Nodes.Ty | expression.py:179-208 | the `ty` attribute exists exactly on Values and Terminals, and it is the category the node was built with |
| Categories.Default | expression.py:47-65 | the shipped registry knows exactly `array` and `scalar` in both dictionaries; array offers `__add__`, `__radd__` and `dot`, scalar offers `__add__` and `__mul__`; of all entries only array `__radd__` is reflected; the doc strings are "A vector value" and "A scalar value" |
| Proxies.Proxy | expression.py:122-131 | a proxy exists exactly for a category in both `module` and `docs`; it reports that category and its doc string and exposes exactly that category's operation table; otherwise the lookup fails with the category as key |
| Proxies.NewTerminal | expression.py:200-208 | building a Terminal succeeds exactly for a registered category and stores the category and the source object unchanged |
| Proxies.NewValue | expression.py:183-191 | building a Value succeeds exactly for a registered category and stores the category and the graph unchanged |
| Builder.Unit | expression.py:76-92 | a Value lifts to its own graph, a Terminal to itself, a number to a scalar Terminal and every other object to an array Terminal holding the original object; lifting fails only when that category is unregistered |
| Builder.LiftAll | expression.py:106 | lifting a list succeeds exactly when every element lifts; the result has the same length and order; a failure is the first failing element's error |
| Builder.Binop | expression.py:94-102 | the result is a Value of the first operand's category whose graph is an Op over the two lifted operands; a first operand without a category fails before lifting; otherwise a second operand that fails to lift gives its error, and then an unregistered category fails |
| Builder.MakeKernel | expression.py:104-110 | the result is a Value of the first operand's category whose graph is a Kernel of the given kind and name over every lifted operand, with count and order kept; the first operand that fails to lift decides the error; if all lift, fewer than two operands fails with too few operands, then a first operand without a category or with an unregistered category fails |
| Builder.UnitTyped | expression.py:76-89 | lifting keeps every category in the graph registered |
| Builder.BinopTyped | expression.py:94-102 | an Op built from typed operands is typed: every Terminal in it has a registered category |
| Builder.KernelTyped | expression.py:104-110 | a Kernel built from typed operands is typed: every Terminal in it has a registered category |
| Builder.UnitFixedPoints | expression.py:79-89 | `unit` returns a node unchanged exactly when it is a Terminal |
| Builder.UnitIdempotentOnTerminals | expression.py:81-82 | lifting a Terminal that a lift produced gives the same result |
| Builder.ReliftingValueGraph | expression.py:79-89 | lifting a Value drops the wrapper, and lifting the bare graph again wraps it in an array Terminal |
| Builder.Unify | expression.py:71-74 | the result category is the first operand's stored category, and there is none when the first operand is neither a Value nor a Terminal; the contract does not mention the operator or the second operand (see UnifyLeftBiased) |
| Builder.UnifyLeftBiased | expression.py:71-74 | the result category ignores the operator and the second operand |
| Builder.UnifyNotSymmetric | expression.py:71-74 | swapping a scalar and an array operand changes the result category |
| Builder.KernelNeedsTwoOperands | expression.py:104-107 | for every kind, `kernel` over zero or one liftable operand fails with too few operands |
| Builder.BinopSharesOperands | expression.py:94-102 | an Op over a Value and a Terminal holds operands equal to the Value's graph and to the Terminal, not wrapped in anything |
| Builder.BinopHostFirstOperand | expression.py:94-96 | `binop` whose first operand is a host object fails with a missing category |
| Operations.ReflectedSwaps | expression.py:49-50 | for every recipe, a reflected wrapper on (self, other) behaves exactly like the plain wrapper on (other, self) |
| Operations.Invoke | expression.py:49-56 | a registered wrapper succeeds exactly when its first operand is a node of a registered category and its second operand lifts; it then yields a Value of the first operand's category, built over the two lifted operands, as an Op or as a two-operand Kernel |
| Operations.Call | expression.py:122-131 | a node exposes exactly its category's operations: a name inside the table runs that entry, and a name outside the table that the node class does not define itself fails; host objects and unregistered categories fail |
| Evaluation.Recognise | expression.py:140-146 | exactly the three names `numpy`, `blir` and `numexpr` select a backend, and each selects the backend of that name |
| Evaluation.Oracle | expression.py:112-113 | the oracle always answers one of the three backend names |
| Evaluation.EvalValue | expression.py:136-147 | a recognised name runs its evaluator on the Value's graph; any other name, None included, runs the evaluator the oracle names |
| Evaluation.Evaluate | expression.py:136-147 | `Node.eval`, and `Terminal.eval` at expression.py:210-211: a Value evaluates to the named backend's result on its graph, or to the result of the backend the oracle names when the name is not recognised; a Terminal evaluates to itself and refuses a backend argument; other objects cannot be evaluated |
| Evaluation.GraphOf | expression.py:133-134 | only a Value has a graph, and the graph is the Value's own |
| Evaluation.NamedBackendIgnoresOracle | expression.py:140-145 | a recognised name gives the same result whatever the oracle would draw |
| Evaluation.UnknownBackendFallsBack | expression.py:146-147 | an unrecognised backend name behaves exactly like no name |
| Evaluation.OracleCoversBackends | expression.py:112-113 | every backend is the oracle's answer for some draw |
| Defaults.DefaultProxies | expression.py:47-65 | the shipped registry has exactly the array and scalar categories, with their operation names and doc strings |
| Defaults.ArrayAdd | expression.py:49 | array `+` builds a ZipWith `add` kernel over (self, other) |
| Defaults.ArrayReflectedAdd | expression.py:50 | array `__radd__` builds a ZipWith `add` kernel over (other, self), with other's category |
| Defaults.ArrayReflectedAddOfHostFails | expression.py:50 | array `__radd__` with a host object as other always fails, because the category is read from that object |
| Defaults.ArrayDot | expression.py:51 | array `dot` builds a Reduce `dot` kernel over (self, other) |
| Defaults.ScalarArithmetic | expression.py:55-56 | scalar `+` and `*` build an Op with that operator over (self, other) |
| Defaults.CategoriesKeepTheirOperations | expression.py:47-60 | scalar nodes have no `dot` or `__radd__`, and array nodes have no `__mul__` |
| Defaults.MixedOperandsFollowTheLeft | expression.py:71-74 | array + scalar is an array kernel, while scalar + array is a scalar Op |
| Defaults.ZipWithOfLists | expression.py:104-110 | zipping two lifted lists gives an array Value over both Terminals, in order |
| Defaults.DotThenAdd | expression.py:244 | `a.dot(a) + a` nests the bare Reduce graph, not the inner Value, in the outer ZipWith |
| Defaults.ArrayPlusNumber | expression.py:252 | array + 1 lifts the number to a scalar Terminal inside a ZipWith |

## Left out

- `compile.eval_numpy`, `compile.eval_blir` and `compile.eval_numexpr`: the numeric kernels are outside this core. They are the opaque functions of `Evaluation.Evaluators`.
- Randomness in `oracle`: it is the `draw` parameter, an index into the three names.
- Python class synthesis (`type(...)`, `object.__new__`, the `AST` base class) and `__str__` rendering: a proxy is a category tag plus a table lookup, and rendering is display only.
- Proxy snapshots: a proxy class copies `module[ty]` when the node is built. `Operations.Call` looks the table up at call time. The two differ only if the registry changes between building and calling.
- Operations.Call: it covers only the category operations from the registry. The methods every node class defines (`eval`, `ast`, `__str__`) are not reached through it: `eval` is `Evaluation.Evaluate`, `ast` is `Evaluation.GraphOf`, and `__str__` is rendering. `Call` on those names reports `NoSuchOperation`, where the source would run the method.
- Python's operator protocol: it decides when `__radd__` runs (`1 + a`). Here `Operations.Call` names the operation explicitly.
- The `__main__` demo and `astutils.dump`: demonstration output only. The demo's graphs are stated by the `Defaults` lemmas.
- Builder.Unify: `unify` reads `e1.ty` by attribute lookup (expression.py:74), so in the source any host object that happens to have a `ty` attribute gets through. The model's host objects (`Opaque`) carry no attributes, so such an operand fails with `MissingCategory` here.
- The `NotImplementedError` branch of `unit`: every Python value is an `object`, so it cannot be reached.
- Numpy scalar types: `numpy.float64`, and `numpy.int64` on 64-bit Python 2, subclass Python `float`/`int`, so they are `Num` and lift to scalar Terminals. Other numpy scalars (`float32`, `int32`, `bool_`, ...) subclass no Python number; they are `Opaque` and lift to array Terminals, as in the source. Python `bool` and `long` are numbers (`Nodes.Number`).
- Builder.BinopSharesOperands: the graph is built from immutable values, so it can state equality but not object identity. In the source `unit` returns the very same objects (expression.py:80, 82), so graphs share nodes (`a.dot(a)` holds one Terminal twice). A Terminal's `src` also aliases the caller's list or ndarray (expression.py:208), so mutating that object later changes every graph that holds it. The model has no aliasing or mutation.
- Builder.MakeKernel: `kernel` stores whatever `kind` it is given (expression.py:104, 158). The model accepts only the five kinds of the enum (`Nodes.KernelKind`), so a Kernel with an integer kind outside 0..4 cannot be built here.
- Evaluation.Evaluate: a backend of `None` passed explicitly to `Terminal.eval` is a TypeError in the source. The model cannot tell it from an omitted argument, so it returns the Terminal.
- `blaze/datadescriptor/as_py.py`: a wrapper over the dynd library with one type check. It is not part of this model.
- `blaze/compute/pmap.py`: one process-wide mutable slot with get and set. It is not part of this model.

=== FILE: base.dfy ===
/** Shared vocabulary of the expression-graph model: category names, the
    errors the builder raises, and the result type that carries them. */
module Base {

  /** A semantic category name, such as "array" or "scalar". */
  type Category = string

  datatype Option<+T> = None | Some(value: T) {
    /** Turns a missing value into the given error. */
    function ToResult(error: Error): Result<T> {
      match this
      case Some(v) => Ok(v)
      case None => Err(error)
    }
  }

  /** One constructor per exception the core can raise. */
  datatype Error =
    | UnknownCategory(ty: Category)                // KeyError: `ty` missing from `module` or `docs`
    | MissingCategory                              // AttributeError: the operand unify reads has no `ty`
    | InsufficientOperands(count: nat)             // IndexError: kernel reads `args[0]` and `args[1]`
    | NoSuchOperation(ty: Category, name: string)  // AttributeError: operation absent from the category's table
    | MissingGraph                                 // AttributeError: a Terminal has no `_ast`
    | NotANode                                     // AttributeError: the object is neither a Value nor a Terminal
    | UnexpectedBackend                            // TypeError: Terminal.eval takes no backend argument

  /** Either the value an operation returns or the exception it raises. */
  datatype Result<+T> = Ok(value: T) | Err(error: Error) {
    predicate IsFailure() {
      Err?
    }

    function PropagateFailure<U>(): Result<U>
      requires Err?
    {
      Err(error)
    }

    function Extract(): T
      requires Ok?
    {
      value
    }
  }
}

=== FILE: builder.dfy ===
/** The graph builder: `unify`, `unit`, `binop` and `kernel`. Every call
    builds new nodes over its lifted operands and changes nothing else. */
module Builder {
  import opened Base
  import opened Nodes
  import opened Categories
  import opened Proxies

  /** The result-category rule: the first operand's category, whatever the
      operator and the second operand. */
  function Unify(op: string, e1: Obj, e2: Obj): (r: Option<Category>)
    ensures e1.ValueObj? ==> r == Some(e1.value.ty)
    ensures e1.AstObj? && e1.node.Terminal? ==> r == Some(e1.node.ty)
    ensures !e1.ValueObj? && !(e1.AstObj? && e1.node.Terminal?) ==> r.None?
  {
    Ty(e1)
  }

  /** The category a host object is lifted into: numbers are scalars,
      everything else (lists, arrays, any other object) is an array. */
  function LiftCategory(val: Obj): Category {
    if val.Num? then "scalar" else "array"
  }

  /** `unit`: a Value lifts to its graph, a Terminal to itself, and any other
      object to a new Terminal holding it. */
  function Unit(reg: Registry, val: Obj): (r: Result<Ast>)
    ensures val.ValueObj? ==> r == Ok(val.value.ast)
    ensures val.AstObj? && val.node.Terminal? ==> r == Ok(val.node)
    ensures Ty(val).None? ==> (r.Ok? <==> reg.Registered(LiftCategory(val)))
    ensures Ty(val).None? && r.Ok? ==> r.value == Terminal(LiftCategory(val), val)
    ensures r.Err? ==> Ty(val).None? && r.error == UnknownCategory(LiftCategory(val))
  {
    match val
    case ValueObj(v) => Ok(v.ast)
    case AstObj(Terminal(_, _)) => Ok(val.node)
    case Num(_) => NewTerminal(reg, "scalar", val)
    case List(_) => NewTerminal(reg, "array", val)
    case NdArray(_) => NewTerminal(reg, "array", val)
    case _ => NewTerminal(reg, "array", val)
  }

  /** `map(unit, args)`: lifts every operand in order and stops at the first
      one that fails. */
  function LiftAll(reg: Registry, args: seq<Obj>): (r: Result<seq<Ast>>)
    ensures r.Ok? <==> forall i :: 0 <= i < |args| ==> Unit(reg, args[i]).Ok?
    ensures r.Ok? ==> |r.value| == |args|
    ensures r.Ok? ==> forall i :: 0 <= i < |args| ==> r.value[i] == Unit(reg, args[i]).value
    ensures r.Err? ==> exists i :: 0 <= i < |args| && Unit(reg, args[i]) == Err(r.error)
                                   && forall j :: 0 <= j < i ==> Unit(reg, args[j]).Ok?
    decreases |args|
  {
    if |args| == 0 then Ok([])
    else
      match Unit(reg, args[0])
      case Err(e) => Err(e)
      case Ok(head) =>
        match LiftAll(reg, args[1..])
        case Err(e) =>
          var i :| 0 <= i < |args| - 1 && Unit(reg, args[1..][i]) == Err(e)
                   && forall j :: 0 <= j < i ==> Unit(reg, args[1..][j]).Ok?;
          assert Unit(reg, args[i + 1]) == Err(e);
          Err(e)
        case Ok(tail) => Ok([head] + tail)
  }

  /** `binop`: an Op over the lifted operands, wrapped in a Value whose
      category is the unlifted first operand's. */
  function Binop(reg: Registry, op: string, a: Obj, b: Obj): (r: Result<Value>)
    ensures Ty(a).None? ==> r == Err(MissingCategory)
    ensures r.Ok? <==> Ty(a).Some? && Unit(reg, b).Ok? && reg.Registered(Ty(a).value)
    ensures r.Ok? ==> r.value.ty == Ty(a).value
    ensures r.Ok? ==> r.value.ast == Op(op, Unit(reg, a).value, Unit(reg, b).value)
    ensures Ty(a).Some? && Unit(reg, b).Err? ==> r == Err(Unit(reg, b).error)
    ensures Ty(a).Some? && Unit(reg, b).Ok? && !reg.Registered(Ty(a).value) ==> r == Err(UnknownCategory(Ty(a).value))
    ensures r.Err? ==> r.error.MissingCategory? || r.error.UnknownCategory?
  {
    var retty :- Unify(op, a, b).ToResult(MissingCategory);
    // `a` is a node once its category has been read, so lifting it cannot fail.
    var left := Unit(reg, a).Extract();
    var right :- Unit(reg, b);
    NewValue(reg, retty, Op(op, left, right))
  }

  /** `kernel`: a Kernel over all lifted operands, in order, wrapped in a
      Value whose category is the unlifted first operand's. */
  function MakeKernel(reg: Registry, kind: KernelKind, name: string, args: seq<Obj>): (r: Result<Value>)
    ensures (forall i :: 0 <= i < |args| ==> Unit(reg, args[i]).Ok?) && |args| < 2 ==>
              r == Err(InsufficientOperands(|args|))
    ensures r.Ok? <==> (forall i :: 0 <= i < |args| ==> Unit(reg, args[i]).Ok?)
                       && |args| >= 2 && Ty(args[0]).Some? && reg.Registered(Ty(args[0]).value)
    ensures r.Ok? ==> |args| >= 2 && r.value.ty == Ty(args[0]).value
    ensures r.Ok? ==> r.value.ast.Kernel? && r.value.ast.kind == kind && r.value.ast.name == name
    ensures r.Ok? ==> |r.value.ast.args| == |args|
    ensures r.Ok? ==> forall i :: 0 <= i < |args| ==> r.value.ast.args[i] == Unit(reg, args[i]).value
    ensures LiftAll(reg, args).Err? ==> r == Err(LiftAll(reg, args).error)
    ensures LiftAll(reg, args).Ok? && |args| >= 2 && Ty(args[0]).None? ==> r == Err(MissingCategory)
    ensures LiftAll(reg, args).Ok? && |args| >= 2 && Ty(args[0]).Some? && !reg.Registered(Ty(args[0]).value) ==>
              r == Err(UnknownCategory(Ty(args[0]).value))
    ensures r.Err? ==> r.error.UnknownCategory? || r.error.MissingCategory? || r.error.InsufficientOperands?
  {
    var operands :- LiftAll(reg, args);
    if |args| < 2 then Err(InsufficientOperands(|args|))
    else
      var retty :- Unify(name, args[0], args[1]).ToResult(MissingCategory);
      NewValue(reg, retty, Kernel(kind, name, operands))
  }

  /** Every Terminal reachable through the operands of `a` carries a
      registered category. A Terminal's source object is opaque payload and
      is not traversed. */
  predicate Typed(reg: Registry, a: Ast)
    decreases a
  {
    match a
    case Terminal(ty, _) => reg.Registered(ty)
    case Op(_, l, r) => Typed(reg, l) && Typed(reg, r)
    case Kernel(_, _, args) => forall x | x in args :: Typed(reg, x)
  }

  /** A node object is typed when its own category and its graph are; host
      objects carry no category. */
  predicate ObjTyped(reg: Registry, x: Obj) {
    match x
    case ValueObj(v) => reg.Registered(v.ty) && Typed(reg, v.ast)
    case AstObj(a) => a.Terminal? ==> Typed(reg, a)
    case _ => true
  }

  lemma UnitTyped(reg: Registry, x: Obj)
    requires ObjTyped(reg, x)
    requires Unit(reg, x).Ok?
    ensures Typed(reg, Unit(reg, x).value)
  {
  }

  /** Building an Op keeps every category in the graph registered. */
  lemma BinopTyped(reg: Registry, op: string, a: Obj, b: Obj)
    requires ObjTyped(reg, a) && ObjTyped(reg, b)
    requires Binop(reg, op, a, b).Ok?
    ensures ObjTyped(reg, ValueObj(Binop(reg, op, a, b).value))
  {
    UnitTyped(reg, a);
    UnitTyped(reg, b);
  }

  /** Building a Kernel keeps every category in the graph registered. */
  lemma KernelTyped(reg: Registry, kind: KernelKind, name: string, args: seq<Obj>)
    requires forall i :: 0 <= i < |args| ==> ObjTyped(reg, args[i])
    requires MakeKernel(reg, kind, name, args).Ok?
    ensures ObjTyped(reg, ValueObj(MakeKernel(reg, kind, name, args).value))
  {
    var v := MakeKernel(reg, kind, name, args).value;
    forall x | x in v.ast.args
      ensures Typed(reg, x)
    {
      var i :| 0 <= i < |v.ast.args| && v.ast.args[i] == x;
      UnitTyped(reg, args[i]);
    }
  }

  /** `unit` leaves exactly the Terminals unchanged: a bare Op or Kernel is
      not a fixed point, because the fallback wraps it in a new Terminal. */
  lemma UnitFixedPoints(reg: Registry, a: Ast)
    ensures Unit(reg, AstObj(a)) == Ok(a) <==> a.Terminal?
  {
  }

  /** Lifting the result of a lift that produced a Terminal changes nothing. */
  lemma UnitIdempotentOnTerminals(reg: Registry, x: Obj)
    requires Unit(reg, x).Ok? && Unit(reg, x).value.Terminal?
    ensures Unit(reg, AstObj(Unit(reg, x).value)) == Unit(reg, x)
  {
  }

  /** Lifting a Value twice does not give back its graph: the first lift
      drops the wrapper, the second hides the bare graph inside an array
      Terminal. */
  lemma ReliftingValueGraph(reg: Registry, v: Value)
    requires !v.ast.Terminal?
    requires reg.Registered("array")
    ensures Unit(reg, ValueObj(v)) == Ok(v.ast)
    ensures Unit(reg, AstObj(v.ast)) == Ok(Terminal("array", AstObj(v.ast)))
  {
  }

  /** The result category depends on the first operand alone. */
  lemma UnifyLeftBiased(op1: string, op2: string, e1: Obj, e2: Obj, e3: Obj)
    ensures Unify(op1, e1, e2) == Unify(op2, e1, e3) == Ty(e1)
  {
  }

  /** Unification is not symmetric. */
  lemma UnifyNotSymmetric(op: string)
    ensures var s := AstObj(Terminal("scalar", Num(Int(2))));
            var a := AstObj(Terminal("array", List([])));
            Unify(op, s, a) != Unify(op, a, s)
  {
  }

  /** `kernel` over fewer than two liftable operands fails, for every kind. */
  lemma KernelNeedsTwoOperands(reg: Registry, kind: KernelKind, name: string, x: Obj)
    requires Unit(reg, x).Ok?
    ensures MakeKernel(reg, kind, name, []) == Err(InsufficientOperands(0))
    ensures MakeKernel(reg, kind, name, [x]) == Err(InsufficientOperands(1))
  {
  }

  /** A new Op references the operands' graphs themselves: a Value operand
      contributes its graph, a Terminal operand itself. */
  lemma BinopSharesOperands(reg: Registry, op: string, v: Value, t: Ast)
    requires t.Terminal?
    requires reg.Registered(v.ty)
    ensures Binop(reg, op, ValueObj(v), AstObj(t)) == Ok(Value(v.ty, Op(op, v.ast, t)))
    ensures Binop(reg, op, AstObj(t), ValueObj(v)).Ok? <==> reg.Registered(t.ty)
  {
  }

  /** The operand `binop` reads the category from must be a node: a host
      first operand fails before anything is lifted. */
  lemma BinopHostFirstOperand(reg: Registry, op: string, a: Obj, b: Obj)
    requires Ty(a).None?
    ensures Binop(reg, op, a, b) == Err(MissingCategory)
  {
  }
}

=== FILE: categories.dfy ===
/** The category registry: for each category name, the table of
    operations its nodes expose and its documentation string. */
module Categories {
  import opened Base
  import opened Nodes

  /** What a registered operation builds: an Op through `binop`, or a
      Kernel through `kernel`. */
  datatype Recipe = BinopOf(op: string) | KernelOf(kind: KernelKind, name: string)

  /** A registered operation `lambda self, other: ...`. A reflected one
      passes its operands as (other, self). */
  datatype Operation = Operation(recipe: Recipe, reflected: bool)

  type OpTable = map<string, Operation>

  /** The source's two dictionaries: `module` (category to operation table)
      and `docs` (category to documentation string). */
  datatype Registry = Registry(ops: map<Category, OpTable>, docs: map<Category, string>) {
    /** A proxy for `ty` can be built only when both dictionaries know it. */
    predicate Registered(ty: Category) {
      ty in ops && ty in docs
    }
  }

  function ArrayOps(): OpTable {
    map[
      "__add__" := Operation(KernelOf(ZipWith, "add"), false),
      "__radd__" := Operation(KernelOf(ZipWith, "add"), true),
      "dot" := Operation(KernelOf(Reduce, "dot"), false)
    ]
  }

  function ScalarOps(): OpTable {
    map[
      "__add__" := Operation(BinopOf("+"), false),
      "__mul__" := Operation(BinopOf("*"), false)
    ]
  }

  /** The registry the source ships with. */
  function Default(): (reg: Registry)
    ensures reg.ops.Keys == reg.docs.Keys == {"array", "scalar"}
    ensures reg.ops["array"].Keys == {"__add__", "__radd__", "dot"}
    ensures reg.ops["scalar"].Keys == {"__add__", "__mul__"}
    ensures forall c, n | c in reg.ops && n in reg.ops[c] :: reg.ops[c][n].reflected <==> (c, n) == ("array", "__radd__")
    ensures reg.docs["array"] == "A vector value" && reg.docs["scalar"] == "A scalar value"
  {
    Registry(
      map["array" := ArrayOps(), "scalar" := ScalarOps()],
      map["array" := "A vector value", "scalar" := "A scalar value"])
  }
}

=== FILE: defaults.dfy ===
/** The registry the source ships with, and what its operations build. */
module Defaults {
  import opened Base
  import opened Nodes
  import opened Categories
  import opened Proxies
  import opened Builder
  import opened Operations

  /** Exactly two categories are registered, each with its own table and
      documentation string; any other category has no proxy. */
  lemma DefaultProxies(base: BaseKind, ty: Category)
    ensures Proxy(Default(), base, "array").Ok?
    ensures Proxy(Default(), base, "array").value.ops.Keys == {"__add__", "__radd__", "dot"}
    ensures Proxy(Default(), base, "array").value.doc == "A vector value"
    ensures Proxy(Default(), base, "scalar").Ok?
    ensures Proxy(Default(), base, "scalar").value.ops.Keys == {"__add__", "__mul__"}
    ensures Proxy(Default(), base, "scalar").value.doc == "A scalar value"
    ensures ty != "array" && ty != "scalar" ==> Proxy(Default(), base, ty) == Err(UnknownCategory(ty))
  {
  }

  /** `x + y` on an array node: a ZipWith "add" kernel over (x, y). */
  lemma ArrayAdd(x: Obj, y: Obj)
    requires Ty(x) == Some("array")
    requires Unit(Default(), y).Ok?
    ensures Call(Default(), x, "__add__", y)
         == Ok(Value("array", Kernel(ZipWith, "add", [Unit(Default(), x).value, Unit(Default(), y).value])))
  {
  }

  /** The reflected add on an array node swaps the operands: (y, x). Its
      category comes from y. */
  lemma ArrayReflectedAdd(x: Obj, y: Obj)
    requires Ty(x) == Some("array")
    requires Ty(y) == Some("array") || Ty(y) == Some("scalar")
    ensures Call(Default(), x, "__radd__", y)
         == Ok(Value(Ty(y).value, Kernel(ZipWith, "add", [Unit(Default(), y).value, Unit(Default(), x).value])))
  {
  }

  /** The reflected add with a host object as `other` always fails: the
      category is read from that host object, which has none. */
  lemma ArrayReflectedAddOfHostFails(x: Obj, h: Obj)
    requires Ty(x) == Some("array")
    requires Ty(h).None?
    ensures Call(Default(), x, "__radd__", h) == Err(MissingCategory)
  {
  }

  /** `x.dot(y)` on an array node: a Reduce "dot" kernel over (x, y). */
  lemma ArrayDot(x: Obj, y: Obj)
    requires Ty(x) == Some("array")
    requires Unit(Default(), y).Ok?
    ensures Call(Default(), x, "dot", y)
         == Ok(Value("array", Kernel(Reduce, "dot", [Unit(Default(), x).value, Unit(Default(), y).value])))
  {
  }

  /** `x + y` and `x * y` on a scalar node: an Op with that operator. */
  lemma ScalarArithmetic(x: Obj, y: Obj)
    requires Ty(x) == Some("scalar")
    requires Unit(Default(), y).Ok?
    ensures Call(Default(), x, "__add__", y)
         == Ok(Value("scalar", Op("+", Unit(Default(), x).value, Unit(Default(), y).value)))
    ensures Call(Default(), x, "__mul__", y)
         == Ok(Value("scalar", Op("*", Unit(Default(), x).value, Unit(Default(), y).value)))
  {
  }

  /** Operations of one category are not exposed on the other. */
  lemma CategoriesKeepTheirOperations(s: Obj, a: Obj, y: Obj)
    requires Ty(s) == Some("scalar") && Ty(a) == Some("array")
    ensures Call(Default(), s, "dot", y) == Err(NoSuchOperation("scalar", "dot"))
    ensures Call(Default(), s, "__radd__", y) == Err(NoSuchOperation("scalar", "__radd__"))
    ensures Call(Default(), a, "__mul__", y) == Err(NoSuchOperation("array", "__mul__"))
  {
  }

  /** Mixing categories: the result takes the left operand's category, so
      array + scalar is an array kernel and scalar + array a scalar Op. */
  lemma MixedOperandsFollowTheLeft(a: Ast, s: Ast)
    requires a.Terminal? && a.ty == "array"
    requires s.Terminal? && s.ty == "scalar"
    ensures Call(Default(), AstObj(a), "__add__", AstObj(s)) == Ok(Value("array", Kernel(ZipWith, "add", [a, s])))
    ensures Call(Default(), AstObj(s), "__add__", AstObj(a)) == Ok(Value("scalar", Op("+", s, a)))
  {
  }

  /** Zipping two array Terminals built from lists gives an array Value whose
      kernel holds both Terminals, in order. */
  lemma ZipWithOfLists()
    ensures var a := Unit(Default(), List([Num(Int(3)), Num(Int(1)), Num(Int(4))]));
            var b := Unit(Default(), List([Num(Int(1)), Num(Int(5)), Num(Int(9))]));
            a.Ok? && b.Ok?
            && MakeKernel(Default(), ZipWith, "add", [AstObj(a.value), AstObj(b.value)])
               == Ok(Value("array", Kernel(ZipWith, "add", [
                    Terminal("array", List([Num(Int(3)), Num(Int(1)), Num(Int(4))])),
                    Terminal("array", List([Num(Int(1)), Num(Int(5)), Num(Int(9))]))])))
  {
    var ta := Terminal("array", List([Num(Int(3)), Num(Int(1)), Num(Int(4))]));
    var tb := Terminal("array", List([Num(Int(1)), Num(Int(5)), Num(Int(9))]));
    assert Unit(Default(), List([Num(Int(3)), Num(Int(1)), Num(Int(4))])) == Ok(ta);
    assert Unit(Default(), List([Num(Int(1)), Num(Int(5)), Num(Int(9))])) == Ok(tb);
    var r := MakeKernel(Default(), ZipWith, "add", [AstObj(ta), AstObj(tb)]);
    assert r.Ok?;
    assert r.value.ast.args == [ta, tb] by {
      assert r.value.ast.args[0] == Unit(Default(), [AstObj(ta), AstObj(tb)][0]).value;
      assert r.value.ast.args[1] == Unit(Default(), [AstObj(ta), AstObj(tb)][1]).value;
    }
  }

  /** `a.dot(a) + a` builds a ZipWith whose first operand is the bare Reduce
      graph of the inner Value, not the Value itself. */
  lemma DotThenAdd(a: Ast)
    requires a.Terminal? && a.ty == "array"
    ensures Call(Default(), AstObj(a), "dot", AstObj(a)).Ok?
    ensures var d := Call(Default(), AstObj(a), "dot", AstObj(a)).value;
      Call(Default(), ValueObj(d), "__add__", AstObj(a))
        == Ok(Value("array", Kernel(ZipWith, "add", [Kernel(Reduce, "dot", [a, a]), a])))
  {
  }

  /** `a + 1` on an array Terminal lifts the host number to a scalar Terminal. */
  lemma ArrayPlusNumber(a: Ast)
    requires a.Terminal? && a.ty == "array"
    ensures Call(Default(), AstObj(a), "__add__", Num(Int(1)))
         == Ok(Value("array", Kernel(ZipWith, "add", [a, Terminal("scalar", Num(Int(1)))])))
  {
  }
}

=== FILE: evaluation.dfy ===
/** Evaluation: a Value hands its graph to one of three backends, chosen by
    name or, for any other name, by the oracle. The backends' numeric
    kernels are opaque functions of the graph. */
module Evaluation {
  import opened Base
  import opened Nodes

  datatype Backend = Numpy | Blir | Numexpr

  function Name(b: Backend): string {
    match b
    case Numpy => "numpy"
    case Blir => "blir"
    case Numexpr => "numexpr"
  }

  /** The list the oracle draws from. */
  const Names: seq<string> := ["numpy", "blir", "numexpr"]

  /** The `if`/`elif` chain of `Node.eval`: the backend a name selects, or
      None for any other name and for a missing one. */
  function Recognise(backend: Option<string>): (r: Option<Backend>)
    ensures r.Some? <==> backend.Some? && backend.value in Names
    ensures r.Some? ==> Name(r.value) == backend.value
  {
    match backend
    case None => None
    case Some(s) =>
      if s == "numpy" then Some(Numpy)
      else if s == "blir" then Some(Blir)
      else if s == "numexpr" then Some(Numexpr)
      else None
  }

  /** `oracle`: `random.choice` over the three names; `draw` is the index
      the random source picked. The graph does not influence the choice. */
  function Oracle(expr: Ast, draw: nat): (name: string)
    requires draw < |Names|
    ensures name in Names
    ensures Recognise(Some(name)).Some?
  {
    Names[draw]
  }

  /** The three external evaluators, one per backend. */
  datatype Evaluators<R> = Evaluators(numpy: Ast -> R, blir: Ast -> R, numexpr: Ast -> R) {
    function Run(b: Backend, expr: Ast): R {
      match b
      case Numpy => numpy(expr)
      case Blir => blir(expr)
      case Numexpr => numexpr(expr)
    }
  }

  /** `Node.eval` on a Value: a recognised backend name runs that evaluator
      on the Value's graph; any other name, None included, asks the oracle
      and evaluates again with its answer. */
  function EvalValue<R>(ev: Evaluators<R>, v: Value, backend: Option<string>, draw: nat): (r: R)
    requires draw < |Names|
    ensures Recognise(backend).Some? ==> r == ev.Run(Recognise(backend).value, v.ast)
    ensures Recognise(backend).None? ==>
              r == ev.Run(Recognise(Some(Oracle(v.ast, draw))).value, v.ast)
    decreases if Recognise(backend).Some? then 0 else 1
  {
    var expr := v.ast;
    if backend == Some("numpy") then ev.numpy(expr)
    else if backend == Some("blir") then ev.blir(expr)
    else if backend == Some("numexpr") then ev.numexpr(expr)
    else EvalValue(ev, v, Some(Oracle(expr, draw)), draw)
  }

  /** What `eval` returns: a Terminal returns itself, a Value the backend's
      answer. */
  datatype Outcome<R> = Itself(node: Ast) | Computed(result: R)

  /** `eval` on any object: Values go through `Node.eval`; a Terminal's own
      `eval` takes no backend and returns the Terminal; other objects have
      no `eval` at all. */
  function Evaluate<R>(ev: Evaluators<R>, x: Obj, backend: Option<string>, draw: nat): (r: Result<Outcome<R>>)
    requires draw < |Names|
    ensures x.ValueObj? ==> r.Ok? && r.value.Computed?
    ensures x.ValueObj? && Recognise(backend).Some? ==>
              r == Ok(Computed(ev.Run(Recognise(backend).value, x.value.ast)))
    ensures x.ValueObj? && Recognise(backend).None? ==>
              r == Ok(Computed(ev.Run(Recognise(Some(Oracle(x.value.ast, draw))).value, x.value.ast)))
    ensures x.AstObj? && x.node.Terminal? ==> (r.Ok? <==> backend.None?)
    ensures x.AstObj? && x.node.Terminal? && r.Ok? ==> r.value == Itself(x.node)
    ensures r.Err? && x.AstObj? && x.node.Terminal? ==> r.error == UnexpectedBackend
    ensures Ty(x).None? ==> r == Err(NotANode)
  {
    match x
    case ValueObj(v) => Ok(Computed(EvalValue(ev, v, backend, draw)))
    case AstObj(Terminal(_, _)) => if backend.None? then Ok(Itself(x.node)) else Err(UnexpectedBackend)
    case _ => Err(NotANode)
  }

  /** `Node.ast`: a Value's graph. A Terminal has no `_ast`. */
  function GraphOf(x: Obj): (r: Result<Ast>)
    ensures r.Ok? <==> x.ValueObj?
    ensures r.Ok? ==> r.value == x.value.ast
    ensures x.AstObj? && x.node.Terminal? ==> r == Err(MissingGraph)
  {
    match x
    case ValueObj(v) => Ok(v.ast)
    case AstObj(Terminal(_, _)) => Err(MissingGraph)
    case _ => Err(NotANode)
  }

  /** Every evaluation ends in exactly the evaluator the name selects, and
      the oracle's draw plays no part when the name is recognised. */
  lemma NamedBackendIgnoresOracle<R>(ev: Evaluators<R>, v: Value, b: Backend, d1: nat, d2: nat)
    requires d1 < |Names| && d2 < |Names|
    ensures EvalValue(ev, v, Some(Name(b)), d1) == EvalValue(ev, v, Some(Name(b)), d2) == ev.Run(b, v.ast)
  {
  }

  /** An unrecognised name behaves exactly as no name at all. */
  lemma UnknownBackendFallsBack<R>(ev: Evaluators<R>, v: Value, name: string, draw: nat)
    requires draw < |Names|
    requires name !in Names
    ensures EvalValue(ev, v, Some(name), draw) == EvalValue(ev, v, None, draw)
  {
  }

  /** Every backend is reachable from the oracle: each has a draw that picks it. */
  lemma OracleCoversBackends(expr: Ast, b: Backend)
    ensures exists draw :: 0 <= draw < |Names| && Oracle(expr, draw) == Name(b)
  {
    match b
    case Numpy => assert Oracle(expr, 0) == Name(b);
    case Blir => assert Oracle(expr, 1) == Name(b);
    case Numexpr => assert Oracle(expr, 2) == Name(b);
  }
}

=== FILE: nodes.dfy ===
/** The objects of the expression graph: host values, the three AST node
    kinds (Terminal, Op, Kernel) and the Value wrapper. */
module Nodes {
  import opened Base

  /** The container-operation kinds of the kernel enum. */
  datatype KernelKind = Map | ZipWith | Scan | Reduce | Outer

  /** The integer the source's enum assigns to each kind. */
  function Code(k: KernelKind): (c: nat)
    ensures c < 5
  {
    match k
    case Map => 0
    case ZipWith => 1
    case Scan => 2
    case Reduce => 3
    case Outer => 4
  }

  /** The kind an integer code names, if any; the inverse of `Code`. */
  function KindOf(c: int): (r: Option<KernelKind>)
    ensures r.Some? <==> 0 <= c < 5
    ensures r.Some? ==> Code(r.value) == c
  {
    if c == 0 then Some(Map)
    else if c == 1 then Some(ZipWith)
    else if c == 2 then Some(Scan)
    else if c == 3 then Some(Reduce)
    else if c == 4 then Some(Outer)
    else None
  }

  lemma CodeRoundTrip(k: KernelKind)
    ensures KindOf(Code(k)) == Some(k)
  {
  }

  /** A Python int, long, bool or float. */
  datatype Number = Int(i: int) | Float(x: real)

  /** Any Python object that can be handed to the graph builder. */
  datatype Obj =
    | Num(n: Number)                 // int, long, float
    | List(items: seq<Obj>)          // list
    | NdArray(data: seq<Number>)     // numpy.ndarray
    | Opaque(id: nat)                // any other host object
    | AstObj(node: Ast)              // a Terminal, or a bare Op or Kernel
    | ValueObj(value: Value)         // a Value proxy

  /** The graph nodes. A Terminal is a leaf holding its source object;
      Op and Kernel hold already-lifted operands. */
  datatype Ast =
    | Terminal(ty: Category, src: Obj)
    | Op(op: string, left: Ast, right: Ast)
    | Kernel(kind: KernelKind, name: string, args: seq<Ast>)

  /** An intermediate computation: the graph that computes it and the
      category of its result. */
  datatype Value = Value(ty: Category, ast: Ast)

  /** The `ty` attribute, which only Values and Terminals carry. */
  function Ty(x: Obj): (r: Option<Category>)
    ensures r.Some? <==> x.ValueObj? || (x.AstObj? && x.node.Terminal?)
    ensures x.ValueObj? ==> r == Some(x.value.ty)
    ensures x.AstObj? && x.node.Terminal? ==> r == Some(x.node.ty)
  {
    match x
    case ValueObj(v) => Some(v.ty)
    case AstObj(Terminal(ty, _)) => Some(ty)
    case _ => None
  }
}

=== FILE: operations.dfy ===
/** Calling a category operation on a node: the node's proxy exposes exactly
    its category's table, and each entry is a thin wrapper over `binop` or
    `kernel`. */
module Operations {
  import opened Base
  import opened Nodes
  import opened Categories
  import opened Proxies
  import opened Builder

  /** The operands a registered wrapper passes on: (self, other), or
      (other, self) when it is reflected. */
  function Operands(m: Operation, self: Obj, other: Obj): (Obj, Obj) {
    if m.reflected then (other, self) else (self, other)
  }

  /** Runs a registered wrapper with `self` and `other`. */
  function Invoke(reg: Registry, m: Operation, self: Obj, other: Obj): (r: Result<Value>)
    ensures var (x, y) := Operands(m, self, other);
      r.Ok? ==> Ty(x).Some? && r.value.ty == Ty(x).value && Unit(reg, x).Ok? && Unit(reg, y).Ok?
    ensures var (x, y) := Operands(m, self, other);
      r.Ok? && m.recipe.BinopOf? ==> r.value.ast == Op(m.recipe.op, Unit(reg, x).value, Unit(reg, y).value)
    ensures var (x, y) := Operands(m, self, other);
      r.Ok? && m.recipe.KernelOf? ==>
        r.value.ast == Kernel(m.recipe.kind, m.recipe.name, [Unit(reg, x).value, Unit(reg, y).value])
    ensures var (x, y) := Operands(m, self, other);
      r.Ok? <==> Ty(x).Some? && reg.Registered(Ty(x).value) && Unit(reg, y).Ok?
    ensures r.Err? ==> r.error.UnknownCategory? || r.error.MissingCategory?
  {
    var (x, y) := Operands(m, self, other);
    match m.recipe
    case BinopOf(op) => Binop(reg, op, x, y)
    case KernelOf(kind, name) =>
      var r := MakeKernel(reg, kind, name, [x, y]);
      assert r.Ok? ==> r.value.ast.args == [Unit(reg, x).value, Unit(reg, y).value] by {
        if r.Ok? {
          assert r.value.ast.args[0] == Unit(reg, [x, y][0]).value;
          assert r.value.ast.args[1] == Unit(reg, [x, y][1]).value;
        }
      }
      r
  }

  /** The node class a receiver's proxy derives from. */
  function BaseOf(x: Obj): BaseKind {
    if x.ValueObj? then ValueBase else TerminalBase
  }

  /** `self.name(other)` for a category operation `name`: looks it up in
      the proxy for the node's category and runs the wrapper found there.
      The methods every node class defines (`eval`, `ast`) are `Evaluate`
      and `GraphOf`. */
  function Call(reg: Registry, self: Obj, name: string, other: Obj): (r: Result<Value>)
    ensures Ty(self).None? ==> r == Err(NotANode)
    ensures Ty(self).Some? ==> var ty := Ty(self).value;
      !reg.Registered(ty) ==> r == Err(UnknownCategory(ty))
    ensures Ty(self).Some? ==> var ty := Ty(self).value;
      reg.Registered(ty) ==> (r == Err(NoSuchOperation(ty, name)) <==> name !in reg.ops[ty])
    ensures Ty(self).Some? ==> var ty := Ty(self).value;
      reg.Registered(ty) && name in reg.ops[ty] ==> r == Invoke(reg, reg.ops[ty][name], self, other)
  {
    var ty :- Ty(self).ToResult(NotANode);
    var view :- Proxy(reg, BaseOf(self), ty);
    if name in view.ops then Invoke(reg, view.ops[name], self, other)
    else Err(NoSuchOperation(ty, name))
  }

  /** A reflected wrapper called on (self, other) is the plain wrapper called
      on (other, self), for every recipe and every pair of operands. */
  lemma ReflectedSwaps(reg: Registry, recipe: Recipe, self: Obj, other: Obj)
    ensures Invoke(reg, Operation(recipe, true), self, other) == Invoke(reg, Operation(recipe, false), other, self)
  {
  }
}

=== FILE: proxies.dfy ===
/** Proxy construction: every Value or Terminal is an instance of a view
    built from its category's entry in the registry. */
module Proxies {
  import opened Base
  import opened Nodes
  import opened Categories

  /** The node class a view is derived from. */
  datatype BaseKind = ValueBase | TerminalBase

  /** A synthesized proxy class: its base, the `ty` and `__doc__` class
      attributes, and the operations copied from the category's table. */
  datatype View = View(base: BaseKind, ty: Category, doc: string, ops: OpTable)

  /** `Node._proxy`: the view for category `ty`, or the KeyError raised when
      either dictionary lacks `ty`. */
  function Proxy(reg: Registry, base: BaseKind, ty: Category): (r: Result<View>)
    ensures r.Ok? <==> reg.Registered(ty)
    ensures r.Ok? ==> r.value.base == base && r.value.ty == ty
    ensures r.Ok? ==> r.value.ops == reg.ops[ty] && r.value.doc == reg.docs[ty]
    ensures r.Err? ==> r.error == UnknownCategory(ty)
  {
    if ty !in reg.ops then Err(UnknownCategory(ty))
    else if ty !in reg.docs then Err(UnknownCategory(ty))
    else Ok(View(base, ty, reg.docs[ty], reg.ops[ty]))
  }

  /** `Terminal(ty, src)`: allocate through the proxy for `ty`, then store
      the fields unchanged. */
  function NewTerminal(reg: Registry, ty: Category, src: Obj): (r: Result<Ast>)
    ensures r.Ok? <==> reg.Registered(ty)
    ensures r.Ok? ==> r.value.Terminal? && r.value.ty == ty && r.value.src == src
    ensures r.Err? ==> r.error == UnknownCategory(ty)
  {
    var _ :- Proxy(reg, TerminalBase, ty);
    Ok(Terminal(ty, src))
  }

  /** `Value(ty, ast)`: allocate through the proxy for `ty`, then store the
      fields unchanged. */
  function NewValue(reg: Registry, ty: Category, ast: Ast): (r: Result<Value>)
    ensures r.Ok? <==> reg.Registered(ty)
    ensures r.Ok? ==> r.value.ty == ty && r.value.ast == ast
    ensures r.Err? ==> r.error == UnknownCategory(ty)
  {
    var _ :- Proxy(reg, ValueBase, ty);
    Ok(Value(ty, ast))
  }
}
